=== FILE: README.md ===
# Action switcher of the boxing-ring scene

The final project of the repository shows two animated boxers. Adam has an
idle action and a "combo" action. James has an idle action, an "uppercut"
and a "dying" action. Each character's animation files load asynchronously.
A one-shot file's action is created by a callback 500 ms after the file
arrives, and only if the character's animation mixer exists by then. The
keys `p`, `u` and `d`, in either case, switch a character from its current
action to a one-shot action. A timer then puts the character back to idle
after the clip's duration plus a 0.3 s cross-fade.

This project models that logic as a pure state machine:

- `Switcher.State` holds the clock in milliseconds and both characters.
  For each character it records whether the mixer exists, whether the idle
  action is defined, which one-shot actions are defined (with their
  durations in ms), and the current action, which may still be undefined.
  It also holds the queue of pending timers and the set of files whose
  completion callback has run.
- `Switcher.Step` applies one event: a key press, a file arrival with the
  number of clips in the file and the duration of its first clip, or the
  passing of some milliseconds. When time passes, every timer falling due
  runs in due order; timers due at the same time run in the order they were
  scheduled. A key press that calls `.fadeOut` on an undefined current
  action yields the outcome `Threw`. `Switcher.Next` then keeps the state
  unchanged, because the throw comes before the handler's first assignment.
- The modules are `Keys` (lower-casing), `Timers` (the timer queue),
  `Actors` (one character and its callbacks), `Switcher` (the scene and its
  events), `Properties` (the invariant and the lemmas) and `Scenarios`
  (concrete event sequences).

The model keeps the code's behaviour, hazards included. The code has no
timer cancellation, so a reversion never checks whether it is stale, and an
early reversion ends a later one-shot action. A design that cancels the
pending reversion on each new trigger would avoid this; the model does not
adopt it. A one-shot file that arrives before its
character's mixer exists is lost. A key press can throw when the idle file
holds too few clips: the current action is then undefined even though the
scene is fully loaded.

## Model

| member | source | states |
|---|---|---|
| Keys.ToLower | FinalProject/src/main.js:238 | the key is lower-cased: no upper-case ASCII letter remains, and every character is kept or replaced by its lower-case letter |
| Keys.LowersToLetter | FinalProject/src/main.js:238 | a key lower-cases to a one-letter name exactly when it is that letter or its upper-case form |
| Switcher.KeyBinding | FinalProject/src/main.js:241-262 | "p"/"P" drive Adam's combo, "u"/"U" James's uppercut, "d"/"D" James's dying; every other key drives nothing (each direction of the iff) |
| Switcher.Trigger | FinalProject/src/main.js:241-270 | an unarmed trigger (target undefined or already current) changes nothing and schedules nothing; an armed one with an undefined current action throws; otherwise only the character's current action changes, to the target, and exactly one reversion is queued, due duration + 300 ms from now |
| Actors.Armed | FinalProject/src/main.js:241 | a trigger is armed exactly when its one-shot action is defined and is not already current, whether the current action is idle, another one-shot or none |
| Switcher.Press | FinalProject/src/main.js:237-271 | "p" or "P" runs Adam's combo trigger, "u" or "U" James' uppercut, "d" or "D" James' dying; any other key changes nothing |
| Switcher.Next | FinalProject/src/main.js:242 | a handler that throws leaves the state as it was before the event; a key press never moves the clock or delivers a file |
| Switcher.Step | FinalProject/src/main.js:237-271 | only key presses can throw; a key other than p, u, d in either case leaves the state and queue unchanged; 'p' never changes James and 'u'/'d' never change Adam |
| Actors.LoadIdle | FinalProject/src/main.js:127-137 | an idle file always creates the mixer; the idle action is defined and made current only if the file holds enough clips (Adam needs more than one clip, line 130; James at least one, line 189) |
| Switcher.Load | FinalProject/src/main.js:140-152 | a file's callback runs once; a one-shot file with at least one clip adds exactly one setup timer, 500 ms ahead, and changes neither character; an empty one does nothing |
| Actors.SetUp | FinalProject/src/main.js:143-150 | the one-shot action becomes defined, with the file's duration, exactly when the mixer exists; without a mixer the character is unchanged; the other actions keep their presence and their durations |
| Actors.Revert | FinalProject/src/main.js:154-159 | with idle defined the current action becomes idle, whatever it was; otherwise nothing changes |
| Actors.RevertIdempotent | FinalProject/src/main.js:227-232 | reverting twice is the same as reverting once |
| Actors.RevertIgnoresCurrent | FinalProject/src/main.js:227-232 | the result of a reversion does not depend on the current action, so a stale reversion also ends a later one-shot |
| Actors.HandlersKeepValid | FinalProject/src/main.js:130-159 | each per-character handler keeps the character invariant (current undefined before idle; then idle or a defined one-shot of that character) |
| Timers.Schedule | FinalProject/src/main.js:245 | scheduling adds exactly the new timer to the queue (as a multiset) |
| Timers.Slot | FinalProject/src/main.js:245 | the slot of a due time: every timer in front of it is due no later, the timer at it is due strictly later |
| Timers.ScheduleAtSlot | FinalProject/src/main.js:269 | the new timer lands behind every timer due no later and in front of every timer due later, with the rest of the queue in order |
| Timers.ScheduleKeepsSorted | FinalProject/src/main.js:257 | scheduling keeps the queue ordered by due time |
| Switcher.FireDue | FinalProject/src/main.js:143-150 | firing due timers keeps each mixer and idle action, moves a current action only to idle, and only removes timers; what each fired callback does is stated by FireDueSetsUp, FireDueRecordsDuration, FireDueReverts and FireDueKeepsUntouched |
| Switcher.FireDueDropsDuePrefix | FinalProject/src/main.js:245 | after time passes, exactly the timers behind the due prefix remain pending |
| Switcher.RunJob | FinalProject/src/main.js:143-159 | a timer callback changes only its own character: a setup records the clip's duration when the mixer exists and otherwise does nothing; a reversion makes idle current when the idle action exists and otherwise does nothing; the clock, queue and delivered files stay |
| Switcher.JobKeepsMixerAndIdle | FinalProject/src/main.js:143-159 | a timer callback never touches a mixer or an idle action and can only set a current action to idle |
| Properties.FireDueKeepsInv | FinalProject/src/main.js:143-159 | firing due timers keeps the scene invariant and leaves only timers due later than the new clock |
| Properties.TriggerKeepsInv | FinalProject/src/main.js:249-258 | a trigger that returns keeps the scene invariant |
| Properties.PressKeepsInv | FinalProject/src/main.js:237-271 | the keyboard handler keeps the invariant, whether it returns or throws |
| Properties.LoadKeepsInv | FinalProject/src/main.js:200-225 | file arrivals keep the invariant |
| Properties.PopKeepsInv | FinalProject/src/main.js:143-159 | running the first pending callback keeps the invariant |
| Properties.StepKeepsInv | FinalProject/src/main.js:237-271 | every event keeps the invariant |
| Properties.RunKeepsInv | FinalProject/src/main.js:113-271 | every event sequence keeps the invariant |
| Properties.CurrentIsIdleOrLoaded | FinalProject/src/main.js:241-270 | in every reachable state, once a character's idle action is defined its current action is idle or one of its own defined one-shot actions |
| Properties.ThrowsIff | FinalProject/src/main.js:241-266 | a key press throws exactly when it is bound, its target is defined and the idle action is not; the mixer then exists |
| Properties.FireDueReverts | FinalProject/src/main.js:154-159 | if a character's reversion is among the timers falling due, the character ends idle |
| Properties.FireDueKeepsUntouched | FinalProject/src/main.js:143-159 | a character none of whose callbacks falls due keeps its mixer, idle action, one-shot actions and current action, so a one-shot stays current until its own reversion is due |
| Properties.FireDueKeepsDefined | FinalProject/src/main.js:143-159 | no callback undefines a one-shot action: once defined it stays defined while timers fire |
| Properties.FireDueSetsUp | FinalProject/src/main.js:143-150 | a setup callback falling due, for a character whose mixer exists, leaves its one-shot action defined |
| Properties.FireDueKeepsDuration | FinalProject/src/main.js:143-150 | a defined one-shot action keeps its recorded duration while timers fire, when every due setup of that clip carries the same duration |
| Properties.FireDueRecordsDuration | FinalProject/src/main.js:143-150 | a due setup callback for a character whose mixer exists leaves the one-shot action defined with the file's duration, the value the reversion delay later reads |
| Properties.AdvanceReverts | FinalProject/src/main.js:227-232 | the same, for the passing of a number of milliseconds |
| Properties.TriggerReverts | FinalProject/src/main.js:253-257 | an armed trigger on a character with idle defined is followed, once duration + 300 ms have passed, by idle |
| Properties.RevertsAfterDuration | FinalProject/src/main.js:241-246 | pressing a bound key makes its target current, and after duration + 300 ms the character is idle again |
| Properties.FireDueDefinesOnlyBySetUp | FinalProject/src/main.js:202-210 | firing timers defines a one-shot action only through its own due setup callback, and only if the mixer existed |
| Properties.NonTimerKeepsOneShots | FinalProject/src/main.js:140-152 | key presses and file arrivals never define a one-shot action |
| Properties.DefinedOnlyBySetUp | FinalProject/src/main.js:143-150 | a one-shot action becomes defined only while time passes, by a due setup callback, with the mixer existing |
| Properties.PressAddsOnlyReversions | FinalProject/src/main.js:245 | a key press queues nothing but reversions |
| Properties.StaysUndefined | FinalProject/src/main.js:214-225 | with its file arrived and no setup pending, an undefined one-shot action stays undefined after any event |
| Properties.LostForever | FinalProject/src/main.js:216-224 | the same after any sequence of events: its key stays a no-op forever |
| Scenarios.ComboLostWhenIdleFileIsLate | FinalProject/src/main.js:140-152 | if the combo's setup callback runs before Adam's idle file arrives, the combo is never defined, whatever follows |
| Scenarios.StaleUppercutReversionEndsDying | FinalProject/src/main.js:249-270 | 'u' at 500 ms and 'D' at 1000 ms: at 2000 ms the uppercut's reversion ends the dying clip 1300 ms early, and the dying reversion stays pending |
| Scenarios.FadeOutOfUndefinedReachable | FinalProject/src/main.js:127-137 | with a one-clip idle file, Adam's mixer exists but idle does not; after the combo setup, 'P' and then 'p' throw on `.fadeOut` of the undefined current action |
| Scenarios.JamesReadyState | FinalProject/src/main.js:187-225 | idle, uppercut and dying files arriving at 0 ms leave James idle with both one-shots defined at 500 ms |

## Left out

- Scene, camera, lights, renderer, orbit controls and the HDR and ring models (FinalProject/src/main.js:1-103): library setup with constants, and no switching logic.
- Cross-fades and playback (`reset`, `fadeIn`, `fadeOut`, `play`, `setLoop`, `clampWhenFinished`): library calls. They are modelled as nothing, except that `.fadeOut` on an undefined current action throws.
- The file loaders and `AnimationMixer`: a file's arrival is an event that carries the number of clips and the first clip's duration. A load that fails never produces the event. The loaders run each completion callback at most once, so the model ignores a repeated arrival of the same file.
- Clip durations as floating-point seconds: durations are whole milliseconds. The reversion delay `(duration + 0.3) * 1000` becomes `duration + 300`, without the rounding of the floating-point product.
- The render loop, `clock.getDelta()` and `mixer.update` (lines 276-288), and the resize handler (lines 293-297): frame plumbing over floating-point time.
- Time inside a timer callback: callbacks neither read the clock nor schedule timers, so the clock jumps once to the end of an `Elapse`.
- Keys.ToLower: lower-cases only ASCII letters, while JavaScript's `toLowerCase` covers all of Unicode. No other character lower-cases to "p", "u" or "d", so key dispatch is the same.
- Switcher.Trigger: the reversion delay is not converted as browsers convert `setTimeout`'s timeout to a 32-bit signed integer. There the delay is reduced modulo 2^32 and read as signed: a delay from 2^31 to 2^32 - 1 ms fires at once, and a longer one fires after the remainder. The model always waits the full delay. Clip durations that long do not occur.
- Properties.RevertsAfterDuration: timers fire exactly at their due time, before any later event. In a browser the delay is only a minimum, so a late timer can run after a key press or file arrival that comes later; `Timers.AllAfter` and this lemma describe the ideal schedule only.
- The homework and weekly exercise scripts and the build configuration: a static scene and library wiring, with no state machine.

=== FILE: actors.dfy ===
/** One animated character: its mixer, its idle and one-shot actions, and the
    action it currently considers active. */
module Actors {
  import opened Wrappers

  datatype Actor = Adam | James

  /** The animation clips the scene knows; `Idle` loops, the others play once. */
  datatype Clip = Idle | Combo | Uppercut | Dying

  /** Milliseconds of cross-fade added to a one-shot clip before its reversion fires. */
  const FadeMs: nat := 300

  /** The one-shot clips each character has a key for. */
  function OneShots(who: Actor): set<Clip> {
    match who
    case Adam => {Combo}
    case James => {Uppercut, Dying}
  }

  /** How many clips a character's idle file must hold before the idle action is
      created: Adam's idle is the file's second clip, James's its first. */
  function IdleClipsNeeded(who: Actor): nat {
    match who
    case Adam => 2
    case James => 1
  }

  /** `mixer`: the animation mixer exists; `idle`: the idle action is defined;
      `oneShots`: each defined one-shot action with its clip duration in
      milliseconds; `current`: the action considered active, `None` while undefined. */
  datatype ActorState = ActorState(
    mixer: bool,
    idle: bool,
    oneShots: map<Clip, nat>,
    current: Option<Clip>)

  /** Every variable still undefined, as before any file has loaded. */
  const Unloaded := ActorState(false, false, map[], None)

  /** What the handlers keep true of a character. The last two conjuncts say
      that once idle is defined, the current action is idle or a defined
      one-shot action of this character, and before that it is undefined. */
  ghost predicate Valid(who: Actor, a: ActorState) {
    && a.oneShots.Keys <= OneShots(who)
    && (a.idle ==> a.mixer)
    && (a.oneShots != map[] ==> a.mixer)
    && (a.current.Some? <==> a.idle)
    && (a.current.Some? ==> a.current.value == Idle || a.current.value in a.oneShots)
  }

  lemma UnloadedValid(who: Actor)
    ensures Valid(who, Unloaded)
  {
  }

  /** Completion of a character's idle file holding `clips` clips: the mixer is
      created, and the idle action is defined and made current only when the
      file holds the clip the character needs. */
  function LoadIdle(who: Actor, a: ActorState, clips: nat): (r: ActorState)
    ensures r.mixer && r.oneShots == a.oneShots
    ensures clips >= IdleClipsNeeded(who) ==> r.idle && r.current == Some(Idle)
    ensures clips < IdleClipsNeeded(who) ==> r.idle == a.idle && r.current == a.current
  {
    if clips >= IdleClipsNeeded(who) then a.(mixer := true, idle := true, current := Some(Idle))
    else a.(mixer := true)
  }

  /** The 500 ms setup callback of a one-shot file: the action is defined, with
      the clip's duration, only if the mixer exists by then. */
  function SetUp(a: ActorState, clip: Clip, durationMs: nat): (r: ActorState)
    ensures clip in r.oneShots <==> clip in a.oneShots || a.mixer
    ensures a.mixer ==> r.oneShots[clip] == durationMs
    ensures forall c :: c != clip ==> (c in r.oneShots <==> c in a.oneShots)
    ensures forall c :: c != clip && c in a.oneShots ==> r.oneShots[c] == a.oneShots[c]
    ensures !a.mixer ==> r == a
    ensures r.mixer == a.mixer && r.idle == a.idle && r.current == a.current
  {
    if a.mixer then a.(oneShots := a.oneShots[clip := durationMs]) else a
  }

  /** The reversion callback: idle becomes current if the idle action is
      defined, whatever was current; otherwise nothing happens. */
  function Revert(a: ActorState): (r: ActorState)
    ensures a.idle ==> r.current == Some(Idle)
    ensures !a.idle ==> r == a
    ensures r.mixer == a.mixer && r.idle == a.idle && r.oneShots == a.oneShots
  {
    if a.idle then a.(current := Some(Idle)) else a
  }

  /** The guard of a trigger key: the target action is defined and is not
      already the current one (an undefined current action differs from it). */
  function Armed(a: ActorState, clip: Clip): (r: bool)
    ensures r ==> clip in a.oneShots
    ensures a.current == Some(clip) ==> !r
    ensures clip in a.oneShots && a.current.None? ==> r
    ensures clip in a.oneShots && a.current.Some? && a.current.value != clip ==> r
  {
    clip in a.oneShots && a.current != Some(clip)
  }

  /** A reversion looks only at whether idle is defined, never at the current
      action, so running it twice is the same as running it once. */
  lemma RevertIdempotent(a: ActorState)
    ensures Revert(Revert(a)) == Revert(a)
  {
  }

  /** A reversion overrides any current action, so a reversion scheduled for an
      earlier one-shot also ends a later one. */
  lemma RevertIgnoresCurrent(a: ActorState, c: Option<Clip>)
    requires a.idle
    ensures Revert(a.(current := c)) == Revert(a)
  {
  }

  /** Each handler keeps `Valid`. */
  lemma HandlersKeepValid(who: Actor, a: ActorState, clips: nat, clip: Clip, durationMs: nat)
    requires Valid(who, a)
    ensures Valid(who, LoadIdle(who, a, clips))
    ensures clip in OneShots(who) ==> Valid(who, SetUp(a, clip, durationMs))
    ensures Valid(who, Revert(a))
    ensures Armed(a, clip) && a.current.Some? ==> Valid(who, a.(current := Some(clip)))
  {
  }
}

=== FILE: keys.dfy ===
/** Lower-casing of the `key` string of a keyboard event, as done before dispatch. */
module Keys {

  predicate IsUpper(c: char) {
    'A' <= c <= 'Z'
  }

  /** ASCII lower-casing of one character; every other character is kept. */
  function LowerChar(c: char): char {
    if IsUpper(c) then (c as int - 'A' as int + 'a' as int) as char else c
  }

  /** The key name with every upper-case ASCII letter replaced by its lower-case form. */
  function ToLower(key: string): (r: string)
    ensures |r| == |key|
    ensures forall i :: 0 <= i < |r| ==> !IsUpper(r[i])
    ensures forall i :: 0 <= i < |r| ==>
              r[i] == key[i] || (IsUpper(key[i]) && r[i] as int == key[i] as int + 32)
  {
    seq(|key|, i requires 0 <= i < |key| => LowerChar(key[i]))
  }

  /** A key lower-cases to the one-letter name `[c]` exactly when it is `[c]`
      or the matching upper-case letter. */
  lemma LowersToLetter(key: string, c: char)
    requires 'a' <= c <= 'z'
    ensures ToLower(key) == [c] <==> key == [c] || key == [(c as int - 32) as char]
  {
    if ToLower(key) == [c] {
      assert |key| == 1;
      assert ToLower(key)[0] == c;
      if IsUpper(key[0]) {
        assert key == [(c as int - 32) as char];
      } else {
        assert key == [c];
      }
    }
    if key == [c] || key == [(c as int - 32) as char] {
      assert ToLower(key)[0] == c;
    }
  }
}

=== FILE: properties.dfy ===
/** What the switcher keeps true over any sequence of events, and what its key
    presses, loads and timers guarantee. */
module Properties {
  import opened Wrappers
  import opened Timers
  import opened Actors
  import opened Switcher

  /** A pending setup callback names a one-shot clip of its character whose file has arrived. */
  ghost predicate JobFits(job: Job, arrived: set<Asset>) {
    match job
    case SetUpJob(who, clip, _) => clip in OneShots(who) && FileOf(who, clip) in arrived
    case RevertJob(_) => true
  }

  /** The queue is ordered and lies in the future, every pending job fits, and
      both characters are `Valid`. */
  ghost predicate Inv(s: State) {
    && Sorted(s.pending)
    && AllAfter(s.pending, s.now)
    && (forall x :: x in s.pending ==> JobFits(x.job, s.arrived))
    && Valid(Adam, s.adam)
    && Valid(James, s.james)
  }

  lemma InitInv()
    ensures Inv(Init)
  {
    UnloadedValid(Adam);
    UnloadedValid(James);
  }

  lemma ValidOf(s: State, who: Actor)
    requires Inv(s)
    ensures Valid(who, Of(s, who))
  {
  }

  /** Running the job at the head of the queue keeps the invariant. */
  lemma PopKeepsInv(s: State)
    requires Inv(s) && |s.pending| > 0
    ensures Inv(RunJob(s.(pending := s.pending[1..]), s.pending[0].job))
  {
    var job := s.pending[0].job;
    var s1 := RunJob(s.(pending := s.pending[1..]), job);
    assert s.pending[0] in s.pending;
    assert JobFits(job, s.arrived);
    assert forall x :: x in s1.pending ==> x in s.pending;
    ValidOf(s, job.who);
    var a := Of(s, job.who);
    match job
    case SetUpJob(who, clip, d) =>
      HandlersKeepValid(who, a, 0, clip, d);
    case RevertJob(who) =>
      HandlersKeepValid(who, a, 0, Idle, 0);
    ValidPair(s1, job.who);
  }

  /** Both characters are valid when the one named and the other one are. */
  lemma ValidPair(s: State, who: Actor)
    requires Valid(who, Of(s, who)) && Valid(Other(who), Of(s, Other(who)))
    ensures Valid(Adam, s.adam) && Valid(James, s.james)
  {
  }

  /** Firing the due prefix of the queue keeps both characters valid and
      leaves only timers due after `until`. */
  lemma {:induction false} FireDueKeepsInv(s: State, until: nat)
    requires Inv(s)
    ensures Inv(FireDue(s, until))
    decreases |s.pending|
  {
    if |s.pending| > 0 && s.pending[0].due <= until {
      PopKeepsInv(s);
      FireDueKeepsInv(RunJob(s.(pending := s.pending[1..]), s.pending[0].job), until);
    } else {
      var r := FireDue(s, until);
      forall x | x in r.pending ensures until < x.due {
        var i :| 0 <= i < |r.pending| && r.pending[i] == x;
        assert r.pending[0].due <= x.due;
      }
    }
  }

  /** A trigger that returns normally keeps the invariant. */
  lemma TriggerKeepsInv(s: State, who: Actor, clip: Clip)
    requires Inv(s) && Trigger(s, who, clip).Ok?
    ensures Inv(Trigger(s, who, clip).state)
  {
    var a := Of(s, who);
    if Armed(a, clip) && a.current.Some? {
      var r := Trigger(s, who, clip).state;
      var t := Timer(s.now + a.oneShots[clip] + FadeMs, RevertJob(who));
      ScheduleKeepsSorted(s.pending, t);
      assert r.pending == Schedule(s.pending, t);
      ValidOf(s, who);
      HandlersKeepValid(who, a, 0, clip, 0);
      ValidPair(r, who);
    }
  }

  /** The keyboard handler keeps the invariant, whether it returns or throws. */
  lemma PressKeepsInv(s: State, key: string)
    requires Inv(s)
    ensures Inv(Next(s, KeyDown(key)))
  {
    var bound := KeyBinding(key);
    if bound.Some? {
      var o := Trigger(s, bound.value.who, bound.value.clip);
      assert Step(s, KeyDown(key)) == o;
      if o.Ok? {
        TriggerKeepsInv(s, bound.value.who, bound.value.clip);
      }
    }
  }

  /** A file's completion callback keeps the invariant. */
  lemma LoadKeepsInv(s: State, f: Asset, clips: nat, d: nat)
    requires Inv(s)
    ensures Inv(Load(s, f, clips, d))
  {
    if f !in s.arrived {
      var who := Owner(f);
      var r := Load(s, f, clips, d);
      ValidOf(s, who);
      HandlersKeepValid(who, Of(s, who), clips, Idle, 0);
      if ClipOf(f) != Idle && clips > 0 {
        var t := Timer(s.now + SetupDelayMs, SetUpJob(who, ClipOf(f), d));
        ScheduleKeepsSorted(s.pending, t);
        assert r.pending == Schedule(s.pending, t);
        assert FileOf(who, ClipOf(f)) == f;
      }
      ValidPair(r, who);
    }
  }

  /** Every event keeps the invariant. */
  lemma StepKeepsInv(s: State, e: Event)
    requires Inv(s)
    ensures Inv(Next(s, e))
  {
    match e
    case KeyDown(key) =>
      PressKeepsInv(s, key);
    case LoadDone(f, clips, d) =>
      assert Next(s, e) == Load(s, f, clips, d);
      LoadKeepsInv(s, f, clips, d);
    case Elapse(ms) =>
      assert Next(s, e) == Advance(s, ms);
      FireDueKeepsInv(s, s.now + ms);
  }

  /** Any sequence of events keeps the invariant. */
  lemma {:induction false} RunKeepsInv(s: State, es: seq<Event>)
    requires Inv(s)
    ensures Inv(Run(s, es))
    decreases |es|
  {
    if es != [] {
      StepKeepsInv(s, es[0]);
      RunKeepsInv(Next(s, es[0]), es[1..]);
    }
  }

  /** Once a character's idle action is defined, its current action is idle or
      one of its own defined one-shot actions, in every reachable state. */
  lemma CurrentIsIdleOrLoaded(es: seq<Event>, who: Actor)
    ensures var a := Of(Run(Init, es), who);
            a.idle ==> a.current == Some(Idle) || (a.current.Some? && a.current.value in a.oneShots
                                                   && a.current.value in OneShots(who))
  {
    InitInv();
    RunKeepsInv(Init, es);
    ValidOf(Run(Init, es), who);
  }

  /** A key press throws exactly when it is bound, its target is defined and
      the character's idle action is not; the mixer then exists, so this is
      the case of an idle file with too few clips. */
  lemma ThrowsIff(s: State, key: string)
    requires Inv(s)
    ensures Step(s, KeyDown(key)).Threw? <==>
              KeyBinding(key).Some? && KeyBinding(key).value.clip in Of(s, KeyBinding(key).value.who).oneShots
              && !Of(s, KeyBinding(key).value.who).idle
    ensures Step(s, KeyDown(key)).Threw? ==> Of(s, KeyBinding(key).value.who).mixer
  {
    if KeyBinding(key).Some? {
      ValidOf(s, KeyBinding(key).value.who);
    }
  }

  /** If the reversion of a character with a defined idle action is among the
      timers due by `until`, the character is idle once they have fired. */
  lemma {:induction false} FireDueReverts(s: State, until: nat, who: Actor, x: Timer<Job>)
    requires Sorted(s.pending) && Of(s, who).idle
    requires x in s.pending && x.job == RevertJob(who) && x.due <= until
    ensures Of(FireDue(s, until), who).current == Some(Idle)
    decreases |s.pending|
  {
    var i :| 0 <= i < |s.pending| && s.pending[i] == x;
    assert s.pending[0].due <= x.due;
    var s1 := RunJob(s.(pending := s.pending[1..]), s.pending[0].job);
    assert FireDue(s, until) == FireDue(s1, until);
    if s.pending[0].job == RevertJob(who) {
      assert Of(s1, who).current == Some(Idle);
    } else {
      assert Of(s1, who).idle;
      assert s1.pending[i - 1] == x;
      FireDueReverts(s1, until, who, x);
    }
  }

  /** A character none of whose timers falls due is left exactly as it was,
      so a one-shot stays current until its own reversion is due. */
  lemma {:induction false} FireDueKeepsUntouched(s: State, until: nat, who: Actor)
    requires forall x :: x in s.pending && x.due <= until ==> x.job.who != who
    ensures Of(FireDue(s, until), who) == Of(s, who)
    decreases |s.pending|
  {
    if |s.pending| > 0 && s.pending[0].due <= until {
      var head := s.pending[0];
      var s1 := RunJob(s.(pending := s.pending[1..]), head.job);
      assert head in s.pending;
      assert who == Other(head.job.who);
      assert forall x :: x in s1.pending ==> x in s.pending;
      FireDueKeepsUntouched(s1, until, who);
    }
  }

  /** A defined one-shot action stays defined while timers fire. */
  lemma {:induction false} FireDueKeepsDefined(s: State, until: nat, who: Actor, clip: Clip)
    requires clip in Of(s, who).oneShots
    ensures clip in Of(FireDue(s, until), who).oneShots
    decreases |s.pending|
  {
    if |s.pending| > 0 && s.pending[0].due <= until {
      var head := s.pending[0];
      var s1 := RunJob(s.(pending := s.pending[1..]), head.job);
      if who != head.job.who {
        assert who == Other(head.job.who);
      }
      assert clip in Of(s1, who).oneShots;
      FireDueKeepsDefined(s1, until, who, clip);
    }
  }

  /** A due setup callback defines its one-shot action when the character's
      mixer exists, and the action stays defined to the end of the firing. */
  lemma {:induction false} FireDueSetsUp(s: State, until: nat, who: Actor, clip: Clip, d: nat, x: Timer<Job>)
    requires Sorted(s.pending) && Of(s, who).mixer
    requires x in s.pending && x.job == SetUpJob(who, clip, d) && x.due <= until
    ensures clip in Of(FireDue(s, until), who).oneShots
    decreases |s.pending|
  {
    var i :| 0 <= i < |s.pending| && s.pending[i] == x;
    assert s.pending[0].due <= x.due;
    var s1 := RunJob(s.(pending := s.pending[1..]), s.pending[0].job);
    assert FireDue(s, until) == FireDue(s1, until);
    if s.pending[0].job == x.job {
      assert clip in Of(s1, who).oneShots;
      FireDueKeepsDefined(s1, until, who, clip);
    } else {
      JobKeepsMixerAndIdle(s.(pending := s.pending[1..]), s.pending[0].job);
      assert Of(s1, who).mixer;
      assert s1.pending[i - 1] == x;
      FireDueSetsUp(s1, until, who, clip, d, x);
    }
  }

  /** A one-shot action's recorded duration survives the firing when every
      setup of that clip falling due carries the same duration. */
  lemma {:induction false} FireDueKeepsDuration(s: State, until: nat, who: Actor, clip: Clip, d: nat)
    requires clip in Of(s, who).oneShots && Of(s, who).oneShots[clip] == d
    requires forall y :: y in s.pending && y.due <= until && SetsUp(y.job, who, clip) ==> y.job.durationMs == d
    ensures clip in Of(FireDue(s, until), who).oneShots
    ensures Of(FireDue(s, until), who).oneShots[clip] == d
    decreases |s.pending|
  {
    if |s.pending| > 0 && s.pending[0].due <= until {
      var head := s.pending[0];
      var s1 := RunJob(s.(pending := s.pending[1..]), head.job);
      assert head in s.pending;
      if who != head.job.who {
        assert who == Other(head.job.who);
      }
      assert Of(s1, who).oneShots[clip] == d;
      assert forall y :: y in s1.pending ==> y in s.pending;
      FireDueKeepsDuration(s1, until, who, clip, d);
    }
  }

  /** A due setup callback, with the character's mixer existing, records the
      file's duration as the one-shot action's duration, unless another due
      setup of the same clip records a different one. */
  lemma {:induction false} FireDueRecordsDuration(s: State, until: nat, who: Actor, clip: Clip, d: nat, x: Timer<Job>)
    requires Sorted(s.pending) && Of(s, who).mixer
    requires x in s.pending && x.job == SetUpJob(who, clip, d) && x.due <= until
    requires forall y :: y in s.pending && y.due <= until && SetsUp(y.job, who, clip) ==> y.job.durationMs == d
    ensures clip in Of(FireDue(s, until), who).oneShots
    ensures Of(FireDue(s, until), who).oneShots[clip] == d
    decreases |s.pending|
  {
    var i :| 0 <= i < |s.pending| && s.pending[i] == x;
    assert s.pending[0].due <= x.due;
    var s1 := RunJob(s.(pending := s.pending[1..]), s.pending[0].job);
    assert FireDue(s, until) == FireDue(s1, until);
    assert forall y :: y in s1.pending ==> y in s.pending;
    if s.pending[0].job == x.job {
      assert Of(s1, who).oneShots[clip] == d;
      FireDueKeepsDuration(s1, until, who, clip, d);
    } else {
      JobKeepsMixerAndIdle(s.(pending := s.pending[1..]), s.pending[0].job);
      assert Of(s1, who).mixer;
      assert s1.pending[i - 1] == x;
      FireDueRecordsDuration(s1, until, who, clip, d, x);
    }
  }

  /** The clip-level form of `RevertsAfterDuration`. */
  lemma TriggerReverts(s: State, who: Actor, clip: Clip, ms: nat)
    requires Sorted(s.pending) && Armed(Of(s, who), clip) && Of(s, who).idle && Of(s, who).current.Some?
    requires ms >= Of(s, who).oneShots[clip] + FadeMs
    ensures Trigger(s, who, clip).Ok?
    ensures Of(Advance(Trigger(s, who, clip).state, ms), who).current == Some(Idle)
  {
    var s1 := Trigger(s, who, clip).state;
    var t := Timer(s.now + Of(s, who).oneShots[clip] + FadeMs, RevertJob(who));
    assert s1.pending == Schedule(s.pending, t);
    ScheduleKeepsSorted(s.pending, t);
    AdvanceReverts(s1, ms, who, t);
  }

  /** `FireDueReverts` for the passing of `ms` milliseconds. */
  lemma AdvanceReverts(s: State, ms: nat, who: Actor, x: Timer<Job>)
    requires Sorted(s.pending) && Of(s, who).idle
    requires x in s.pending && x.job == RevertJob(who) && x.due <= s.now + ms
    ensures Of(Advance(s, ms), who).current == Some(Idle)
  {
    FireDueReverts(s, s.now + ms, who, x);
  }

  /** A successful trigger is undone by the clock: after the clip's duration
      plus the fade has elapsed, the character is back to idle. */
  lemma RevertsAfterDuration(s: State, key: string, ms: nat)
    requires Inv(s) && KeyBinding(key).Some?
    requires var b := KeyBinding(key).value;
             Armed(Of(s, b.who), b.clip) && Of(s, b.who).idle
             && ms >= Of(s, b.who).oneShots[b.clip] + FadeMs
    ensures var b := KeyBinding(key).value;
            && Step(s, KeyDown(key)).Ok?
            && Of(Next(s, KeyDown(key)), b.who).current == Some(b.clip)
            && Of(Next(Next(s, KeyDown(key)), Elapse(ms)), b.who).current == Some(Idle)
  {
    var b := KeyBinding(key).value;
    ValidOf(s, b.who);
    assert Step(s, KeyDown(key)) == Trigger(s, b.who, b.clip);
    TriggerReverts(s, b.who, b.clip, ms);
  }

  /** The job is the setup callback of `clip` for `who`. */
  predicate SetsUp(job: Job, who: Actor, clip: Clip) {
    job.SetUpJob? && job.who == who && job.clip == clip
  }

  /** No timer of the queue sets up `clip` for `who`. */
  ghost predicate NoSetUpFor(q: seq<Timer<Job>>, who: Actor, clip: Clip) {
    forall x :: x in q && x.job.SetUpJob? ==> x.job.who != who || x.job.clip != clip
  }

  /** Firing timers defines a one-shot action only through a setup callback
      of that clip that was due, and only if the mixer already existed. */
  lemma {:induction false} FireDueDefinesOnlyBySetUp(s: State, until: nat, who: Actor, clip: Clip)
    requires clip !in Of(s, who).oneShots && clip in Of(FireDue(s, until), who).oneShots
    ensures Of(s, who).mixer
    ensures exists x :: x in s.pending && x.due <= until && SetsUp(x.job, who, clip)
    decreases |s.pending|
  {
    var head := s.pending[0];
    var s1 := RunJob(s.(pending := s.pending[1..]), head.job);
    if SetsUp(head.job, who, clip) {
      assert head in s.pending;
      if !Of(s, who).mixer {
        assert clip !in Of(s1, who).oneShots;
        FireDueDefinesOnlyBySetUp(s1, until, who, clip);
        assert false;
      }
    } else {
      assert clip !in Of(s1, who).oneShots;
      FireDueDefinesOnlyBySetUp(s1, until, who, clip);
      assert Of(s1, who).mixer == Of(s, who).mixer;
      var x :| x in s1.pending && x.due <= until && SetsUp(x.job, who, clip);
      assert x in s.pending;
    }
  }

  /** Key presses and file arrivals never define a one-shot action. */
  lemma NonTimerKeepsOneShots(s: State, e: Event, who: Actor)
    requires !e.Elapse?
    ensures Of(Next(s, e), who).oneShots == Of(s, who).oneShots
  {
    if e.KeyDown? {
      var bound := KeyBinding(e.key);
      if bound.Some? {
        assert Step(s, e) == Trigger(s, bound.value.who, bound.value.clip);
        if who != bound.value.who {
          assert who == Other(bound.value.who);
        }
      }
    } else {
      assert Next(s, e) == Load(s, e.file, e.clips, e.durationMs);
      if who != Owner(e.file) {
        assert who == Other(Owner(e.file));
      }
    }
  }

  /** A one-shot action becomes defined only while time passes, through its
      setup callback falling due, and only if the character's mixer exists. */
  lemma DefinedOnlyBySetUp(s: State, e: Event, who: Actor, clip: Clip)
    requires clip !in Of(s, who).oneShots && clip in Of(Next(s, e), who).oneShots
    ensures e.Elapse? && Of(s, who).mixer
    ensures exists x :: x in s.pending && x.due <= s.now + e.ms && SetsUp(x.job, who, clip)
  {
    if e.Elapse? {
      FireDueDefinesOnlyBySetUp(s, s.now + e.ms, who, clip);
    } else {
      NonTimerKeepsOneShots(s, e, who);
      assert false;
    }
  }

  /** A key press adds nothing to the queue but reversions. */
  lemma PressAddsOnlyReversions(s: State, key: string)
    ensures forall x :: x in Next(s, KeyDown(key)).pending ==> x in s.pending || x.job.RevertJob?
  {
    var bound := KeyBinding(key);
    if bound.Some? {
      var o := Trigger(s, bound.value.who, bound.value.clip);
      assert Step(s, KeyDown(key)) == o;
      forall x | x in Next(s, KeyDown(key)).pending ensures x in s.pending || x.job.RevertJob? {
        if o.Ok? && o.state != s {
          assert x in multiset(o.state.pending);
        }
      }
    }
  }

  /** Without its setup callback pending and with its file already arrived, a
      one-shot action that is not defined stays undefined after one event. */
  lemma StaysUndefined(s: State, e: Event, who: Actor, clip: Clip)
    requires clip in OneShots(who) && FileOf(who, clip) in s.arrived
    requires clip !in Of(s, who).oneShots && NoSetUpFor(s.pending, who, clip)
    ensures FileOf(who, clip) in Next(s, e).arrived
    ensures clip !in Of(Next(s, e), who).oneShots && NoSetUpFor(Next(s, e).pending, who, clip)
  {
    var r := Next(s, e);
    if clip in Of(r, who).oneShots {
      DefinedOnlyBySetUp(s, e, who, clip);
      assert false;
    }
    match e
    case KeyDown(key) =>
      PressAddsOnlyReversions(s, key);
    case LoadDone(f, clips, d) =>
      if f !in s.arrived && ClipOf(f) != Idle && clips > 0 {
        assert f != FileOf(who, clip);
        forall x | x in r.pending ensures x.job.SetUpJob? ==> x.job.who != who || x.job.clip != clip {
          assert x in multiset(r.pending);
        }
      }
    case Elapse(ms) =>
  }

  /** A one-shot action whose setup callback has already run without a mixer is
      lost: its key stays a no-op whatever happens afterwards. */
  lemma {:induction false} LostForever(s: State, es: seq<Event>, who: Actor, clip: Clip)
    requires clip in OneShots(who) && FileOf(who, clip) in s.arrived
    requires clip !in Of(s, who).oneShots && NoSetUpFor(s.pending, who, clip)
    ensures clip !in Of(Run(s, es), who).oneShots
    ensures Trigger(Run(s, es), who, clip) == Ok(Run(s, es))
    decreases |es|
  {
    if es != [] {
      StaysUndefined(s, es[0], who, clip);
      LostForever(Next(s, es[0]), es[1..], who, clip);
    }
  }
}

=== FILE: scenarios.dfy ===
/** Concrete event sequences showing the behaviour of the switcher as written. */
module Scenarios {
  import opened Wrappers
  import opened Timers
  import opened Actors
  import opened Switcher
  import opened Properties

  /** James with all three actions defined at 500 ms: idle of 1 clip, uppercut
      of 1200 ms, dying of 2000 ms. */
  function JamesReady(): State {
    Run(Init, [LoadDone(JamesIdleFbx, 1, 0), LoadDone(JamesUppercutFbx, 1, 1200),
               LoadDone(JamesDyingFbx, 1, 2000), Elapse(500)])
  }

  const T1 := Timer(500, SetUpJob(James, Uppercut, 1200))
  const T2 := Timer(500, SetUpJob(James, Dying, 2000))
  const S1 := State(0, Unloaded, ActorState(true, true, map[], Some(Idle)), [], {JamesIdleFbx})
  const S2 := S1.(pending := [T1], arrived := {JamesIdleFbx, JamesUppercutFbx})
  const S3 := S2.(pending := [T1, T2], arrived := {JamesIdleFbx, JamesUppercutFbx, JamesDyingFbx})

  lemma JamesStep1()
    ensures Next(Init, LoadDone(JamesIdleFbx, 1, 0)) == S1
  {
  }

  lemma JamesStep2()
    ensures Next(S1, LoadDone(JamesUppercutFbx, 1, 1200)) == S2
  {
    assert Schedule([], T1) == [T1];
  }

  lemma JamesStep3()
    ensures Next(S2, LoadDone(JamesDyingFbx, 1, 2000)) == S3
  {
    assert Schedule([T1], T2) == [T1] + Schedule([], T2);
  }

  lemma JamesStep4()
    ensures Next(S3, Elapse(500)) == State(500, Unloaded, JamesAll, [], S3.arrived)
  {
    var r1 := RunJob(S3.(pending := [T2]), T1.job);
    assert r1.james == S1.james.(oneShots := map[Uppercut := 1200]);
    var r2 := RunJob(r1.(pending := []), T2.job);
    assert r2.james == JamesAll;
    assert FireDue(r2, 500) == r2.(now := 500);
    assert [T1, T2][1..] == [T2];
    assert FireDue(r1, 500) == FireDue(r2, 500);
    assert FireDue(S3, 500) == FireDue(r1, 500);
  }

  lemma JamesReadyState()
    ensures JamesReady() == State(500, Unloaded, JamesAll, [], {JamesIdleFbx, JamesUppercutFbx, JamesDyingFbx})
  {
    JamesStep1();
    JamesStep2();
    JamesStep3();
    JamesStep4();
    RunFour(Init, LoadDone(JamesIdleFbx, 1, 0), LoadDone(JamesUppercutFbx, 1, 1200),
            LoadDone(JamesDyingFbx, 1, 2000), Elapse(500));
  }

  /** James with every action defined and idle current. */
  const JamesAll := ActorState(true, true, map[Uppercut := 1200, Dying := 2000], Some(Idle))

  /** Running a sequence runs its first event, then the rest. */
  lemma {:induction false} RunCons(s: State, e: Event, es: seq<Event>)
    ensures Run(s, [e] + es) == Run(Next(s, e), es)
  {
    assert ([e] + es)[1..] == es;
  }

  /** Running a short sequence is running its events one after another. */
  lemma RunFour(s: State, e1: Event, e2: Event, e3: Event, e4: Event)
    ensures Run(s, [e1, e2, e3, e4]) == Next(Next(Next(Next(s, e1), e2), e3), e4)
    ensures Run(s, [e1, e2, e3]) == Next(Next(Next(s, e1), e2), e3)
    ensures Run(s, [e1, e2]) == Next(Next(s, e1), e2)
  {
    var s1 := Next(s, e1);
    var s2 := Next(s1, e2);
    var s3 := Next(s2, e3);
    RunCons(s, e1, [e2, e3, e4]);
    RunCons(s1, e2, [e3, e4]);
    RunCons(s2, e3, [e4]);
    RunCons(s3, e4, []);
    RunCons(s, e1, [e2, e3]);
    RunCons(s1, e2, [e3]);
    RunCons(s2, e3, []);
    RunCons(s, e1, [e2]);
    RunCons(s1, e2, []);
  }

  const R1 := Timer(2000, RevertJob(James))
  const R2 := Timer(3300, RevertJob(James))
  const Ready := State(500, Unloaded, JamesAll, [], {JamesIdleFbx, JamesUppercutFbx, JamesDyingFbx})
  const AfterU := Ready.(james := JamesAll.(current := Some(Uppercut)), pending := [R1])
  const AfterD := AfterU.(now := 1000, james := JamesAll.(current := Some(Dying)), pending := [R1, R2])

  lemma PressU()
    ensures Next(Ready, KeyDown("u")) == AfterU
  {
    assert KeyBinding("u") == Some(Binding(James, Uppercut));
    assert Schedule([], R1) == [R1];
  }

  lemma WaitThenPressD()
    ensures Next(Next(AfterU, Elapse(500)), KeyDown("D")) == AfterD
  {
    assert Next(AfterU, Elapse(500)) == AfterU.(now := 1000);
    assert KeyBinding("D") == Some(Binding(James, Dying));
    assert Schedule([R1], R2) == [R1] + Schedule([], R2);
  }

  lemma StaleFires()
    ensures Next(AfterD, Elapse(1000)) == AfterD.(now := 2000, james := JamesAll, pending := [R2])
  {
    var r1 := RunJob(AfterD.(pending := [R2]), R1.job);
    assert r1.james == JamesAll;
    assert [R1, R2][1..] == [R2];
    assert FireDue(r1, 2000) == r1.(now := 2000);
  }

  /** The stale reversion: 'u' at 500 ms schedules a reversion at 2000 ms; 'D'
      at 1000 ms makes dying current and schedules its own at 3300 ms; at
      2000 ms the uppercut's reversion still fires and ends the 2000 ms dying
      clip after 1000 ms, leaving the later reversion pending. */
  lemma StaleUppercutReversionEndsDying()
    ensures var s := Run(JamesReady(), [KeyDown("u"), Elapse(500), KeyDown("D")]);
            && s.now == 1000 && s.james.current == Some(Dying)
            && s.pending == [Timer(2000, RevertJob(James)), Timer(3300, RevertJob(James))]
            && var r := Next(s, Elapse(1000));
               r.now == 2000 && r.james.current == Some(Idle) && r.pending == [Timer(3300, RevertJob(James))]
  {
    JamesReadyState();
    PressU();
    WaitThenPressD();
    StaleFires();
    RunFour(Ready, KeyDown("u"), Elapse(500), KeyDown("D"), Elapse(1000));
  }

  /** Adam's idle file holds a single clip, so the mixer exists while the idle
      action stays undefined; once the combo is set up, 'P' passes its guard and
      calls `.fadeOut` on the undefined current action, and keeps doing so. */
  lemma FadeOutOfUndefinedReachable()
    ensures var s := Run(Init, [LoadDone(AdamIdleFbx, 1, 0), LoadDone(AdamComboFbx, 1, 900), Elapse(500)]);
            && s.adam.mixer && !s.adam.idle && Combo in s.adam.oneShots
            && Step(s, KeyDown("P")) == Threw(FadeOutOfUndefined(Adam))
            && Step(Next(s, KeyDown("P")), KeyDown("p")) == Threw(FadeOutOfUndefined(Adam))
  {
    var s1 := Next(Init, LoadDone(AdamIdleFbx, 1, 0));
    assert s1.adam == ActorState(true, false, map[], None);
    var s2 := Next(s1, LoadDone(AdamComboFbx, 1, 900));
    assert s2.pending == [Timer(500, SetUpJob(Adam, Combo, 900))];
    var s3 := Next(s2, Elapse(500));
    assert s3.adam == ActorState(true, false, map[Combo := 900], None);
    assert Run(Init, [LoadDone(AdamIdleFbx, 1, 0), LoadDone(AdamComboFbx, 1, 900), Elapse(500)]) == s3 by {
      assert Run(s3, []) == s3;
    }
    assert KeyBinding("P") == Some(Binding(Adam, Combo));
    assert KeyBinding("p") == Some(Binding(Adam, Combo));
  }

  /** The combo file arrives, and its setup callback fires, before Adam's idle
      file: the combo action is never defined, whatever happens afterwards. */
  lemma ComboLostWhenIdleFileIsLate(es: seq<Event>)
    ensures Combo !in Run(Run(Init, [LoadDone(AdamComboFbx, 1, 900), Elapse(500)]), es).adam.oneShots
  {
    var s1 := Next(Init, LoadDone(AdamComboFbx, 1, 900));
    assert s1.pending == [Timer(500, SetUpJob(Adam, Combo, 900))];
    var s2 := State(500, Unloaded, Unloaded, [], {AdamComboFbx});
    assert Next(s1, Elapse(500)) == s2 by {
      var r1 := RunJob(s1.(pending := []), SetUpJob(Adam, Combo, 900));
      assert r1 == s1.(pending := []);
      assert FireDue(r1, 500) == s2;
    }
    assert Run(Init, [LoadDone(AdamComboFbx, 1, 900), Elapse(500)]) == s2 by {
      assert Run(s2, []) == s2;
    }
    LostForever(s2, es, Adam, Combo);
  }
}

=== FILE: switcher.dfy ===
/** The whole action switcher of the boxing scene: both characters, the files
    that load asynchronously, the keyboard handler and the pending timers, as a
    pure step function over one event at a time. */
module Switcher {
  import opened Wrappers
  import opened Keys
  import opened Timers
  import opened Actors

  /** Milliseconds between a one-shot file's arrival and its setup callback. */
  const SetupDelayMs: nat := 500

  /** The animated files the scene loads, each with its own completion callback. */
  datatype Asset = AdamIdleFbx | AdamComboFbx | JamesIdleFbx | JamesUppercutFbx | JamesDyingFbx

  function Owner(f: Asset): Actor {
    match f
    case AdamIdleFbx | AdamComboFbx => Adam
    case _ => James
  }

  /** The clip a file supplies to its owner. */
  function ClipOf(f: Asset): Clip {
    match f
    case AdamIdleFbx | JamesIdleFbx => Idle
    case AdamComboFbx => Combo
    case JamesUppercutFbx => Uppercut
    case JamesDyingFbx => Dying
  }

  /** The file a character's clip comes from; the inverse of `Owner` and `ClipOf`. */
  function FileOf(who: Actor, clip: Clip): (f: Asset)
    requires clip == Idle || clip in OneShots(who)
    ensures Owner(f) == who && ClipOf(f) == clip
  {
    match (who, clip)
    case (Adam, Idle) => AdamIdleFbx
    case (Adam, _) => AdamComboFbx
    case (James, Idle) => JamesIdleFbx
    case (James, Uppercut) => JamesUppercutFbx
    case (James, _) => JamesDyingFbx
  }

  /** The callbacks handed to `setTimeout`: a one-shot setup carrying the clip
      duration read from the file, or a character's reversion to idle. */
  datatype Job = SetUpJob(who: Actor, clip: Clip, durationMs: nat) | RevertJob(who: Actor)

  /** A key press with the event's `key` string; a file's completion callback
      with the number of clips in the file and the duration of its first clip;
      the passing of `ms` milliseconds. */
  datatype Event =
    | KeyDown(key: string)
    | LoadDone(file: Asset, clips: nat, durationMs: nat)
    | Elapse(ms: nat)

  /** `now`: the clock in milliseconds; `pending`: the timers not yet fired;
      `arrived`: the files whose completion callback has already run. */
  datatype State = State(
    now: nat,
    adam: ActorState,
    james: ActorState,
    pending: seq<Timer<Job>>,
    arrived: set<Asset>)

  /** The `TypeError` thrown by calling `.fadeOut` on an undefined current action. */
  datatype Fault = FadeOutOfUndefined(who: Actor)

  /** A handler either returns normally with the new state or throws. */
  datatype Outcome = Ok(state: State) | Threw(fault: Fault)

  const Init := State(0, Unloaded, Unloaded, [], {})

  function Other(who: Actor): Actor {
    match who
    case Adam => James
    case James => Adam
  }

  function Of(s: State, who: Actor): ActorState {
    match who
    case Adam => s.adam
    case James => s.james
  }

  function With(s: State, who: Actor, a: ActorState): (r: State)
    ensures Of(r, who) == a && Of(r, Other(who)) == Of(s, Other(who))
    ensures r.now == s.now && r.pending == s.pending && r.arrived == s.arrived
  {
    match who
    case Adam => s.(adam := a)
    case James => s.(james := a)
  }

  /** Which character and one-shot clip a key drives. */
  datatype Binding = Binding(who: Actor, clip: Clip)

  /** The key is lower-cased and then compared with "p", "u" and "d". */
  function KeyBinding(key: string): (r: Option<Binding>)
    ensures r == Some(Binding(Adam, Combo)) <==> key == "p" || key == "P"
    ensures r == Some(Binding(James, Uppercut)) <==> key == "u" || key == "U"
    ensures r == Some(Binding(James, Dying)) <==> key == "d" || key == "D"
    ensures r.None? <==> key !in {"p", "P", "u", "U", "d", "D"}
    ensures r.Some? ==> r.value.clip in OneShots(r.value.who)
  {
    LowersToLetter(key, 'p');
    LowersToLetter(key, 'u');
    LowersToLetter(key, 'd');
    var k := ToLower(key);
    if k == "p" then Some(Binding(Adam, Combo))
    else if k == "u" then Some(Binding(James, Uppercut))
    else if k == "d" then Some(Binding(James, Dying))
    else None
  }

  /** One branch of the keyboard handler. An unarmed trigger does nothing. An
      armed one with an undefined current action throws before changing
      anything. Otherwise the target becomes current, nothing else of either
      character changes, and exactly one reversion is added to the queue, due
      the clip's duration plus the fade after now. */
  function Trigger(s: State, who: Actor, clip: Clip): (r: Outcome)
    ensures !Armed(Of(s, who), clip) ==> r == Ok(s)
    ensures Armed(Of(s, who), clip) && Of(s, who).current.None? ==> r == Threw(FadeOutOfUndefined(who))
    ensures Armed(Of(s, who), clip) && Of(s, who).current.Some? ==>
              && r.Ok?
              && Of(r.state, who) == Of(s, who).(current := Some(clip))
              && Of(r.state, Other(who)) == Of(s, Other(who))
              && r.state.now == s.now && r.state.arrived == s.arrived
              && multiset(r.state.pending)
                 == multiset(s.pending) + multiset{Timer(s.now + Of(s, who).oneShots[clip] + FadeMs, RevertJob(who))}
  {
    var a := Of(s, who);
    if !Armed(a, clip) then Ok(s)
    else if a.current.None? then Threw(FadeOutOfUndefined(who))
    else
      var due := s.now + a.oneShots[clip] + FadeMs;
      Ok(With(s, who, a.(current := Some(clip))).(pending := Schedule(s.pending, Timer(due, RevertJob(who)))))
  }

  /** The `keydown` handler: the lower-cased key selects at most one of its
      three branches. */
  function Press(s: State, key: string): (r: Outcome)
    ensures key == "p" || key == "P" ==> r == Trigger(s, Adam, Combo)
    ensures key == "u" || key == "U" ==> r == Trigger(s, James, Uppercut)
    ensures key == "d" || key == "D" ==> r == Trigger(s, James, Dying)
    ensures key !in {"p", "P", "u", "U", "d", "D"} ==> r == Ok(s)
  {
    match KeyBinding(key)
    case None => Ok(s)
    case Some(b) => Trigger(s, b.who, b.clip)
  }

  /** A file's completion callback. It runs once per file. An idle file creates
      the mixer and possibly the idle action. A one-shot file holding at least
      one clip schedules exactly one setup callback 500 ms later and changes
      nothing else; an empty one-shot file changes nothing but `arrived`. */
  function Load(s: State, f: Asset, clips: nat, durationMs: nat): (r: State)
    ensures f in s.arrived ==> r == s
    ensures r.arrived == s.arrived + {f} && r.now == s.now
    ensures Of(r, Other(Owner(f))) == Of(s, Other(Owner(f)))
    ensures f !in s.arrived && ClipOf(f) == Idle ==>
              r.pending == s.pending && Of(r, Owner(f)) == LoadIdle(Owner(f), Of(s, Owner(f)), clips)
    ensures ClipOf(f) != Idle ==> Of(r, Owner(f)) == Of(s, Owner(f))
    ensures f !in s.arrived && ClipOf(f) != Idle ==>
              multiset(r.pending) == multiset(s.pending)
                + (if clips > 0 then multiset{Timer(s.now + SetupDelayMs, SetUpJob(Owner(f), ClipOf(f), durationMs))}
                   else multiset{})
  {
    if f in s.arrived then s
    else
      var s' := s.(arrived := s.arrived + {f});
      var who := Owner(f);
      if ClipOf(f) == Idle then With(s', who, LoadIdle(who, Of(s, who), clips))
      else if clips > 0 then
        s'.(pending := Schedule(s.pending, Timer(s.now + SetupDelayMs, SetUpJob(who, ClipOf(f), durationMs))))
      else s'
  }

  /** Runs one timer callback; it touches only the character it belongs to and
      schedules nothing. */
  function RunJob(s: State, job: Job): (r: State)
    ensures r.pending == s.pending && r.now == s.now && r.arrived == s.arrived
    ensures Of(r, Other(job.who)) == Of(s, Other(job.who))
    ensures job.SetUpJob? ==> Of(r, job.who).current == Of(s, job.who).current
    ensures job.SetUpJob? && Of(s, job.who).mixer ==>
      Of(r, job.who).oneShots == Of(s, job.who).oneShots[job.clip := job.durationMs]
    ensures job.SetUpJob? && !Of(s, job.who).mixer ==> r == s
    ensures job.RevertJob? ==> Of(r, job.who).oneShots == Of(s, job.who).oneShots
    ensures job.RevertJob? && Of(s, job.who).idle ==> Of(r, job.who).current == Some(Idle)
    ensures job.RevertJob? && !Of(s, job.who).idle ==> r == s
  {
    match job
    case SetUpJob(who, clip, d) => With(s, who, SetUp(Of(s, who), clip, d))
    case RevertJob(who) => With(s, who, Revert(Of(s, who)))
  }

  /** A timer callback keeps both characters' mixer and idle action, and can
      change a current action only to idle. */
  lemma JobKeepsMixerAndIdle(s: State, job: Job)
    ensures forall who :: Of(RunJob(s, job), who).mixer == Of(s, who).mixer
    ensures forall who :: Of(RunJob(s, job), who).idle == Of(s, who).idle
    ensures forall who :: Of(RunJob(s, job), who).current in {Of(s, who).current, Some(Idle)}
  {
    var r := RunJob(s, job);
    assert Of(r, Other(job.who)) == Of(s, Other(job.who));
    forall who ensures Of(r, who).current in {Of(s, who).current, Some(Idle)} {
      if who != job.who {
        assert who == Other(job.who);
      }
    }
  }

  /** Fires, in queue order, every timer at the head of the queue that is due
      no later than `until`, and sets the clock to `until`. The callbacks
      neither read the clock nor schedule timers, so the clock is set once.
      Each character keeps its mixer and idle action, and its current action
      either stays or becomes idle. */
  function FireDue(s: State, until: nat): (r: State)
    ensures r.now == until && r.arrived == s.arrived
    ensures |r.pending| <= |s.pending|
    ensures forall x :: x in r.pending ==> x in s.pending
    ensures forall who :: Of(r, who).mixer == Of(s, who).mixer && Of(r, who).idle == Of(s, who).idle
    ensures forall who :: Of(r, who).current == Of(s, who).current || Of(r, who).current == Some(Idle)
    decreases |s.pending|
  {
    if |s.pending| > 0 && s.pending[0].due <= until then
      var s1 := RunJob(s.(pending := s.pending[1..]), s.pending[0].job);
      var r := FireDue(s1, until);
      assert forall x :: x in s1.pending ==> x in s.pending;
      JobKeepsMixerAndIdle(s.(pending := s.pending[1..]), s.pending[0].job);
      r
    else s.(now := until)
  }

  /** The timers left pending are exactly those behind the due prefix. */
  lemma {:induction false} FireDueDropsDuePrefix(s: State, until: nat)
    ensures FireDue(s, until).pending == s.pending[Slot(s.pending, until)..]
    decreases |s.pending|
  {
    if |s.pending| > 0 && s.pending[0].due <= until {
      var s1 := RunJob(s.(pending := s.pending[1..]), s.pending[0].job);
      FireDueDropsDuePrefix(s1, until);
      assert s.pending[1..][Slot(s.pending[1..], until)..] == s.pending[Slot(s.pending, until)..];
    }
  }

  /** `ms` milliseconds pass; the callbacks falling due meanwhile run in order. */
  function Advance(s: State, ms: nat): State {
    FireDue(s, s.now + ms)
  }

  /** One event. Only a key press can throw; any key other than p, u, d (in
      either case) changes nothing, and a press never touches the other character. */
  function Step(s: State, e: Event): (r: Outcome)
    ensures !e.KeyDown? ==> r.Ok?
    ensures e.KeyDown? && e.key !in {"p", "P", "u", "U", "d", "D"} ==> r == Ok(s)
    ensures e.KeyDown? && r.Ok? && (e.key == "p" || e.key == "P") ==> r.state.james == s.james
    ensures e.KeyDown? && r.Ok? && e.key in {"u", "U", "d", "D"} ==> r.state.adam == s.adam
  {
    match e
    case KeyDown(key) => Press(s, key)
    case LoadDone(f, clips, d) => Ok(Load(s, f, clips, d))
    case Elapse(ms) => Ok(Advance(s, ms))
  }

  /** The state after an event; a thrown handler leaves the state as it was,
      because the throw happens before its first assignment. */
  function Next(s: State, e: Event): (r: State)
    ensures Step(s, e).Threw? ==> r == s
    ensures Step(s, e).Ok? ==> r == Step(s, e).state
    ensures e.KeyDown? ==> r.now == s.now && r.arrived == s.arrived
  {
    match Step(s, e)
    case Ok(t) => t
    case Threw(_) => s
  }

  function Run(s: State, es: seq<Event>): State
    decreases |es|
  {
    if es == [] then s else Run(Next(s, es[0]), es[1..])
  }
}

=== FILE: timers.dfy ===
/** The browser's pending `setTimeout` callbacks: a queue ordered by due time,
    where callbacks due at the same millisecond run in the order they were scheduled. */
module Timers {

  /** A callback `job` that runs once the clock reaches `due` (milliseconds). */
  datatype Timer<J> = Timer(due: nat, job: J)

  ghost predicate Sorted<J>(q: seq<Timer<J>>) {
    forall i, j :: 0 <= i < j < |q| ==> q[i].due <= q[j].due
  }

  /** Every timer in `q` is due strictly after `t`. */
  ghost predicate AllAfter<J>(q: seq<Timer<J>>, t: int) {
    forall x :: x in q ==> t < x.due
  }

  /** Adds `t` to the queue; timers due at the same time keep their scheduling order. */
  function Schedule<J(==,!new)>(q: seq<Timer<J>>, t: Timer<J>): (r: seq<Timer<J>>)
    ensures multiset(r) == multiset(q) + multiset{t}
    ensures forall x :: x in r <==> x in q || x == t
    decreases |q|
  {
    if |q| == 0 || t.due < q[0].due then [t] + q
    else
      assert q == [q[0]] + q[1..];
      [q[0]] + Schedule(q[1..], t)
  }

  /** The number of leading timers of `q` that are due no later than `d`. */
  function Slot<J>(q: seq<Timer<J>>, d: nat): (k: nat)
    ensures k <= |q|
    ensures forall i :: 0 <= i < k ==> q[i].due <= d
    ensures k < |q| ==> d < q[k].due
    decreases |q|
  {
    if |q| == 0 || d < q[0].due then 0 else 1 + Slot(q[1..], d)
  }

  /** `Schedule` places `t` at the slot of its due time, leaving the rest of the
      queue in order: behind every timer due no later and in front of every
      timer due strictly later. */
  lemma {:induction false} ScheduleAtSlot<J(!new)>(q: seq<Timer<J>>, t: Timer<J>)
    ensures Schedule(q, t) == q[..Slot(q, t.due)] + [t] + q[Slot(q, t.due)..]
    decreases |q|
  {
    if |q| == 0 || t.due < q[0].due {
      assert q[..0] == [] && q[0..] == q;
    } else {
      var k' := Slot(q[1..], t.due);
      ScheduleAtSlot(q[1..], t);
      assert Schedule(q, t) == [q[0]] + Schedule(q[1..], t);
      assert Slot(q, t.due) == k' + 1;
      ConsSplit(q, k', t);
    }
  }

  /** Putting the head back in front of a split tail splits the whole queue one
      place later. */
  lemma ConsSplit<T>(q: seq<T>, k: nat, t: T)
    requires k < |q|
    ensures [q[0]] + (q[1..][..k] + [t] + q[1..][k..]) == q[..k + 1] + [t] + q[k + 1..]
  {
    assert q[..k + 1] == [q[0]] + q[1..][..k];
    assert q[k + 1..] == q[1..][k..];
  }

  /** Scheduling keeps the queue sorted by due time. */
  lemma {:induction false} ScheduleKeepsSorted<J(!new)>(q: seq<Timer<J>>, t: Timer<J>)
    requires Sorted(q)
    ensures Sorted(Schedule(q, t))
    decreases |q|
  {
    if |q| == 0 || t.due < q[0].due {
      var r := [t] + q;
      forall i, j | 0 <= i < j < |r| ensures r[i].due <= r[j].due {
        if i > 0 {
          assert r[i] == q[i - 1] && r[j] == q[j - 1];
        } else {
          assert r[j] == q[j - 1];
          assert q[0].due <= q[j - 1].due;
        }
      }
    } else {
      var tail := q[1..];
      assert Sorted(tail);
      ScheduleKeepsSorted(tail, t);
      var rest := Schedule(tail, t);
      var r := [q[0]] + rest;
      forall i, j | 0 <= i < j < |r| ensures r[i].due <= r[j].due {
        if i > 0 {
          assert r[i] == rest[i - 1] && r[j] == rest[j - 1];
        } else {
          assert r[j] == rest[j - 1];
          assert r[j] in rest;
          assert r[j] in tail || r[j] == t;
        }
      }
    }
  }
}

=== FILE: wrappers.dfy ===
/** The optional-value type used for the handler's possibly-undefined variables. */
module Wrappers {

  /** `None` stands for a JavaScript variable that is still `undefined`. */
  datatype Option<+T> = None | Some(value: T)
}
